=== FILE: README.md ===
# CloudStore client — a Dafny model

CloudStore is a browser client for a record-and-file-storage backend. A user signs in, picks a folder, lists its files, uploads and deletes files and creates folders. This project models the client's decision logic as pure Dafny functions over immutable datatypes, and proves properties about it.

- `common.dfy` (`Common`): `Option` and `LocalFile`, the name, size and MIME type of a browser file.
- `text.dfy` (`Text`): ASCII versions of the string built-ins the client uses: `toLowerCase`, `split('.').pop()` and `trim`.
- `utils.dfy` (`Utils`): the presentation utilities. These are `getFileType` and its eight categories, `validateFile` with the 100 MiB default, the light/dark theme rule, and the notice type.
- `api.dfy` (`Api`): the data-access layer.
  - The session store holds two optional fields: the bearer token and the cached user.
  - Each HTTP exchange is an input value `Reply`. It is either `NetworkError`, or a status plus a body that is `None` when it is not JSON.
  - Each operation of `AuthAPI`, `FilesAPI` and `FoldersAPI` maps a session and a reply to an `Exchange` with three parts: the new session, the request sent (`None` when a local precondition short-circuits), and how the promise settles. A promise can resolve with a `{success, data}` / `{success: false, error}` envelope, reject, or never settle.
- `dashboard.dfy` (`Dashboard`): the dashboard controller as a state machine.
  - The state is `selectedFolderId`, `itemToDelete` and whether the delete confirmation is open.
  - Each handler returns the next state, the requests it sent, the notices it showed, the file-list loads it started, and whether its promise rejected part-way.
- `auth.dfy` (`Auth`): the sign-in and registration pages. These cover the "already signed in" redirect and the ordered field checks that decide the message shown or whether the account API is called.

The dashboard's upload handler is built on the corrected upload (see Findings). All other members follow the code as written.

## Model

| member | source | states |
|---|---|---|
| Text.ToLower | pb_public/js/utils.js:87 | lower-casing keeps the length and maps each character through ASCII lower-casing |
| Text.AfterLastDot | pb_public/js/utils.js:87 | the extension is a dot-free suffix of the name that is the whole name or is preceded by a dot |
| Text.AfterLastDotCharacterized | pb_public/js/utils.js:87 | the text after the last dot is the unique such suffix |
| Text.AfterLastDotNoDot | pb_public/js/utils.js:87 | a name without a dot is its own extension |
| Text.AfterLastDotJoin | pb_public/js/utils.js:87 | everything up to and including a dot is discarded: `a.b` has the extension of `b` |
| Text.AfterLastDotToLower | pb_public/js/utils.js:87 | lower-casing then splitting gives the same extension as splitting then lower-casing |
| Text.ToLowerIgnoresCase | pb_public/js/utils.js:87 | two names equal up to ASCII case lower-case to the same text |
| Text.Trim | pb_public/js/auth.js:34 | trimming gives "" exactly for all-white-space input, and otherwise a text that neither starts nor ends with white space |
| Text.TrimSurrounded | pb_public/js/auth.js:72 | any white-space padding around a text with non-blank ends is removed exactly |
| Text.TrimIdempotent | pb_public/js/dashboard.js:132-133 | trimming an already trimmed name changes nothing |
| Utils.Classify | pb_public/js/utils.js:89-104 | a non-default category lists the extension, and `default` means no list does |
| Utils.ExtensionListsDisjoint | pb_public/js/utils.js:89-94 | no extension is listed under two categories |
| Utils.ClassifyIsMembership | pb_public/js/utils.js:96-104 | because of disjointness the order of the checks is irrelevant: the category is exactly the one listing the extension, and `default` iff none does |
| Utils.GetFileType | pb_public/js/utils.js:86-105 | the category is that of the lower-cased text after the last dot, and `default` exactly when no list holds it |
| Utils.LabelIsOneOfEight | pb_public/js/utils.js:96-104 | the returned label is one of the eight category names, and distinct categories have distinct labels |
| Utils.GetFileTypeIgnoresCase | pb_public/js/utils.js:87 | names that differ only in ASCII case get the same category |
| Utils.GetFileTypeLastSegment | pb_public/js/utils.js:87 | only the last dot-separated segment decides the category |
| Utils.GetFileTypeTrailingDot | pb_public/js/utils.js:87 | a name ending in a dot is `default` |
| Utils.GetFileTypeDoubleExtension | pb_public/js/utils.js:87-101 | `archive.tar.gz` is an archive |
| Utils.GetFileTypeUpperCase | pb_public/js/utils.js:87-96 | `REPORT.PDF` is a pdf |
| Utils.GetFileTypeDotless | pb_public/js/utils.js:87-102 | a dotless name is read as its own extension, so a file called `c` is code |
| Utils.StartsWithAny | pb_public/js/utils.js:168 | true iff some listed prefix is a prefix of the MIME type |
| Utils.ValidateFile | pb_public/js/utils.js:152-176 | valid iff size <= limit and the type starts with an allowed prefix; an oversize file is refused for size whatever its type; a type refusal happens only within the limit |
| Utils.ValidateFileDefault | pb_public/js/utils.js:152 | the default limit is 104857600 bytes and a file of exactly that size with an allowed type passes |
| Utils.SizeCheckedBeforeType | pb_public/js/utils.js:160-165 | for an oversize file the verdict does not depend on its type |
| Utils.ValidateFileExamples | pb_public/js/utils.js:153-176 | a PDF at the limit passes, an empty MIME type is refused, an oversize image is refused for size |
| Utils.InitialTheme | pb_public/js/utils.js:182 | with nothing or "" saved the theme is light, otherwise the saved value |
| Utils.ToggleTheme | pb_public/js/utils.js:193-197 | the new theme is light or dark, differs from the current one, and is light exactly when the current one is dark |
| Utils.ToggleTwice | pb_public/js/utils.js:194 | toggling twice is the identity on light and dark, and sends any other value to light |
| Utils.ToggleSurvivesReload | pb_public/js/utils.js:182-197 | the saved toggled theme is the one applied on the next load |
| Api.UserId | pb_public/js/api.js:93-94 | the owner id exists iff a user is cached whose id is non-empty |
| Api.IsAuthenticated | pb_public/js/api.js:38-40 | true iff a token is stored and it is not the empty string |
| Api.StoredText | pb_public/js/api.js:50 | a missing token is stored as a non-empty text |
| Api.Logout | pb_public/js/api.js:72-75 | afterwards token and user are absent, the session is not authenticated and no owner id is known |
| Api.MessageOr | pb_public/js/api.js:54 | the reply's message when non-empty, else the fallback, so never "" when the fallback is not |
| Api.Login | pb_public/js/api.js:42-56 | sends the credentials. An ok reply stores the returned record and authenticates unless the token is "". A non-ok reply fails with `data.message` or 'Login failed' and keeps the session. No reply or a non-JSON reply rejects. |
| Api.Register | pb_public/js/api.js:58-70 | never changes the session; fails with `data.message` or 'Registration failed'; rejects without a readable reply |
| Api.ListingOf | pb_public/js/api.js:87-89 | rejects exactly on no reply or an ok non-JSON reply; a non-ok status gives [] without reading the body; an ok JSON reply gives its `items`, or [] when it has none |
| Api.GetFiles | pb_public/js/api.js:81-90 | an empty folder id gives [] with no request. Otherwise one request for that folder: a non-ok status gives [], an ok JSON reply gives its `items` (or [] without them), and it rejects exactly on no reply or an ok non-JSON reply |
| Api.GetFolders | pb_public/js/api.js:147-154 | always one request; a non-ok status gives []; an ok JSON reply gives its `items` (or [] without them); rejects exactly on no reply or an ok non-JSON reply |
| Api.UploadFileAsWritten | pb_public/js/api.js:92-128 | a request is sent iff folder id and user id are present; the promise never settles exactly when a sent upload gets a non-JSON reply |
| Api.UploadHangsOnNonJsonReply | pb_public/js/api.js:112-118 | an upload answered by a 502 HTML page never settles |
| Api.UploadFile | pb_public/js/api.js:92-128 | always resolves. A missing folder or user fails locally with no request. Otherwise one multipart request with the file's fields, folder and owner. Success iff the status is 2xx: with the reply's record as data, or no data when the body is not JSON. A non-2xx status fails with the reply's `message` or 'Upload failed'. A transport error gives the network message. Every error is non-empty. |
| Api.UploadFileAgreesWhenSettled | pb_public/js/api.js:104-127 | wherever the code as written settles, the corrected upload settles identically |
| Api.DeleteOutcome | pb_public/js/api.js:136-140 | rejects iff no reply, succeeds iff the status is ok, otherwise fails with the fixed message |
| Api.DeleteFile | pb_public/js/api.js:131-141 | one request naming the file; a non-ok status gives 'Failed to delete file.' |
| Api.DeleteFolder | pb_public/js/api.js:177-189 | one request naming the folder; a non-ok status gives 'Failed to delete folder. It may not be empty.' |
| Api.DeleteIgnoresBody | pb_public/js/api.js:136-140 | two replies with the same status give the same delete result whatever their bodies |
| Api.CreateFolder | pb_public/js/api.js:156-174 | without an owner id fails with 'User not found.' and no request. Otherwise one request with the name and owner: rejects iff the reply is missing or non-JSON, succeeds with the created record on ok, fails with `data.message` or 'Folder creation failed' otherwise. |
| Api.LoginThenLogout | pb_public/js/api.js:49-52 | a successful login with a real token authenticates and caches the returned user; logout undoes it |
| Api.LoginAuthenticatesUnlessTokenEmpty | pb_public/js/api.js:38-51 | after an ok login the session is authenticated iff the reply's token is not ""; a reply with no token still authenticates, because "undefined" is stored |
| Api.LoginRejectedScenario | pb_public/js/api.js:53-55 | a 400 reply carrying "Invalid credentials" yields exactly that error and leaves the user signed out |
| Api.OnlyLoginAndLogoutChangeSession | pb_public/js/api.js:58-190 | register, listing, upload, folder creation and both deletes return the session unchanged |
| Dashboard.FindFolder | pb_public/js/dashboard.js:47 | true iff some loaded folder has the id |
| Dashboard.SelectAfterLoad | pb_public/js/dashboard.js:40-55 | a non-empty previous id that is still loaded is kept; otherwise the first folder's id; with no folders ""; always "" or a loaded id |
| Dashboard.ReloadKeepsSelection | pb_public/js/dashboard.js:40-55 | reloading the same folder list keeps the selection |
| Dashboard.LoadFolders | pb_public/js/dashboard.js:38-57 | one folder request. A rejected fetch changes nothing. Otherwise the selection becomes `SelectAfterLoad` of the previous selection and the fetched folders, which is "" or a loaded id, and its files are loaded. The pending item and confirmation are untouched. |
| Dashboard.SelectFolder | pb_public/js/dashboard.js:183-186 | the chosen value becomes the selection and its files are loaded; nothing is sent, no notice is shown, and it never rejects |
| Dashboard.Tiles | pb_public/js/dashboard.js:70-73 | one tile per file, in order, each built from that file |
| Dashboard.TileOf | pb_public/js/dashboard.js:78-83 | a tile carries its file, the file's `getFileType` category, and the download link `/api/files/files/<id>/<stored file>` |
| Dashboard.TilesCategorised | pb_public/js/dashboard.js:70-82 | the tile at each position carries the file at that position and the file's category from `getFileType` |
| Dashboard.LoadFiles | pb_public/js/dashboard.js:59-74 | an empty folder id shows the prompt and sends nothing. Otherwise one request for that folder, and the grid is left alone only when it rejects. A resolved list shows "This folder is empty." exactly when it is [], and otherwise the tiles of exactly those files. |
| Dashboard.LoadFilesShowsItems | pb_public/js/dashboard.js:64-73 | an ok JSON listing reply renders its `items` as tiles, or the empty-folder message when there are none; a non-ok status renders as an empty folder |
| Dashboard.HandleFileUpload | pb_public/js/dashboard.js:115-128 | with no selected folder it only warns and sends nothing. Otherwise it shows "Uploading <name>..." and sends the upload. A success shows "Upload successful." and reloads the folder. A failure shows "Upload failed: " with the error and reloads nothing. The state never changes. |
| Dashboard.AfterFolderCreated | pb_public/js/dashboard.js:135-139 | the handler rejects exactly when the awaited folder reload rejects, and then changes nothing. Otherwise the new id becomes the selection, and it loads the files of the reload's own selection and then of the new folder. |
| Dashboard.CreateFolderFlow | pb_public/js/dashboard.js:130-143 | a cancelled, empty or blank name does nothing. Otherwise the requests are the create (none without a cached user) plus the folder list after a success. A rejected create stops the handler with nothing changed. A failed create shows the error and changes nothing. A success shows its notice, and unless the reload rejects, selects the new folder and loads it last. |
| Dashboard.FileTarget | pb_public/js/dashboard.js:92 | a file tile offers exactly that file, as a file, for deletion |
| Dashboard.ChooseDelete | pb_public/js/dashboard.js:103-108 | the item becomes pending and the confirmation opens |
| Dashboard.CancelDelete | pb_public/js/dashboard.js:189 | the confirmation closes and the pending item stays |
| Dashboard.HandleDelete | pb_public/js/dashboard.js:146-169 | nothing pending does nothing. A pending folder only warns and closes the confirmation, keeping the item, with no request. A pending file sends exactly one delete for its id. A rejected delete changes nothing, shows nothing and loads nothing. Otherwise the item is cleared and the confirmation closed. A success shows `"<name>" was deleted successfully.` and reloads the folder. A failure shows `Error: Failed to delete file.` and reloads nothing. |
| Dashboard.BrowsingKeepsConsistent | pb_public/js/dashboard.js:38-143 | loading, selecting, uploading and creating keep the confirmation tied to a pending item |
| Dashboard.DeletionKeepsConsistent | pb_public/js/dashboard.js:103-189 | choosing, cancelling and confirming keep the confirmation tied to a pending item |
| Dashboard.ConfirmOnlyDeletesFiles | pb_public/js/dashboard.js:92-158 | when only file tiles open the menu, the pending item is always a file and confirming sends exactly its delete |
| Dashboard.ChooseThenConfirm | pb_public/js/dashboard.js:103-168 | choosing a file and confirming deletes exactly that file and clears the item once a reply arrives |
| Dashboard.CancelKeepsPending | pb_public/js/dashboard.js:189 | after a cancel, confirming still deletes the item chosen before it |
| Auth.OnPageLoad | pb_public/js/auth.js:7-10 | the page redirects iff the session is authenticated |
| Auth.RegisterProblem | pb_public/js/auth.js:76-91 | no problem iff every check passes; a reported problem is a failing check |
| Auth.ProblemText | pb_public/js/auth.js:77-90 | each check shows its own message, and each message belongs to exactly one check |
| Auth.RegisterProblemIsFirstFailure | pb_public/js/auth.js:76-91 | the reported problem is exactly the earliest failing check in the order missing field, short username, short password, mismatch |
| Auth.EmptyConfirmIsMissingField | pb_public/js/auth.js:76-78 | an empty confirmation is always "fill in all fields" |
| Auth.RegisterProblemNoneExactly | pb_public/js/auth.js:76-92 | the checks pass iff all fields are non-empty, the username has at least 3 characters, the password at least 6, and the two passwords match |
| Auth.SubmitLogin | pb_public/js/auth.js:30-60 | login is called iff the trimmed username and the untrimmed password are non-empty, with exactly those values; otherwise "fill in all fields". After a call the session is the one login leaves. It goes to the dashboard iff login succeeded, with "Login successful!". A failure shows login's error, and a rejection shows the network message. |
| Auth.SubmitRegister | pb_public/js/auth.js:68-112 | the session never changes. `register` is called iff the chain passes, with the trimmed username and untrimmed passwords. Otherwise the first failing check's message shows. After a call it goes to sign-in iff register succeeded, with the account-created message. A failure shows register's error, and a rejection shows the network message. |
| Auth.RegisterCalledExactly | pb_public/js/auth.js:76-96 | `register` is called iff all fields are non-empty, the trimmed username has at least 3 characters, the password at least 6, and the passwords match |
| Auth.LoginUsernameTrimmed | pb_public/js/auth.js:34-45 | white space around the username never changes what login sends |
| Auth.BlankUsernameNotSent | pb_public/js/auth.js:34-40 | an all-white-space username never reaches the API |

## Left out

- Transport, JSON parsing and storage (`fetch`, `XMLHttpRequest`, `JSON.parse`, `localStorage`) appear only as inputs: `Reply` values, optional body fields and the `Session` record. A body that parses to `null` or to a non-object is not distinguished from one that does not parse.
- Request headers are not part of `Request`, nor is the URL with its filter query. Bearer token and content type are plumbing and carry no decision.
- Upload progress (`loaded / total * 100`) is floating-point arithmetic.
- `formatFileSize`, `formatDate`, `generateId`, `debounce`, `copyToClipboard` and the notification auto-hide depend on floats, the wall clock, randomness, timers or browser APIs.
- `validateFile`'s size message embeds `formatFileSize(maxSize)`. The model abstracts it to `TooLarge(limit)`.
- DOM work is left out: rendering, the user menu, context-menu positioning, `toggleButtonLoading`, redirect timers, and closing a modal by Escape or by an outside click. The last two behave like cancel: the confirmation closes and the pending item stays.
- Parallel multi-file uploads (dashboard.js:179-181) are left out. Each file is one independent `HandleFileUpload`, and the model does not interleave concurrent handlers.
- Each dashboard handler is given the replies it awaits. The file-list loads it starts without awaiting are only recorded, in `reloads`, and `LoadFiles` models each of them on its own reply.
- The folder select's value and `selectedFolderId` are one value here. The browser would read an id without a matching option back as "", which the code only risks right after creating a folder.
- String handling is ASCII only. Lower-casing changes only A-Z. `trim` removes only space, tab, LF, CR, VT and FF. JavaScript `.length` is read as the sequence length.
- A missing `id` on the cached user and JavaScript's `null` folder id are both represented by "".
- Dashboard.HandleFileUpload: it is built on the corrected upload, so it always shows its second notice and finishes. As written, an upload whose reply is not JSON never settles (see Findings), and the handler stops after the "Uploading" notice.

## Findings

| source | as written | input that shows it | evidently intended | confidence | as-written member | corrected member |
|---|---|---|---|---|---|---|
| pb_public/js/api.js:112-118 | the upload's load listener calls `JSON.parse` on the response text with no guard, and `resolve` runs only after that parse | an upload answered with status 502 and an HTML error page, or any other body that is not JSON | every upload settles with exactly one envelope: success by status, otherwise failure with 'Upload failed' | high that the promise never settles; not executed | Api.UploadFileAsWritten | Api.UploadFile |

`Api.UploadHangsOnNonJsonReply` exhibits the hang. `Api.UploadFile` is proved always to resolve, and `Api.UploadFileAgreesWhenSettled` shows it matches the written code wherever that code settles.

=== FILE: api.dfy ===
/**
 * The client's data-access layer: the session store (bearer token and cached
 * user) and the Auth, Files and Folders resource clients.
 *
 * Every HTTP exchange is an input value (`Reply`): either the transport failed,
 * or a status arrived with a body that may or may not parse as JSON. Every
 * operation maps the current session plus that reply to an `Exchange`: the new
 * session, the request it put on the wire (if any), and how its promise settles.
 */
module Api {
  import opened Common

  // ---------------------------------------------------------------------------
  // Records and session
  // ---------------------------------------------------------------------------

  /** A user record; an empty `id` stands for a missing or falsy `id` field. */
  datatype User = User(id: string, username: string)

  /** A folder record. */
  datatype Folder = Folder(id: string, name: string, owner: string)

  /** A file record; `storedFile` is the storage key used in the download path. */
  datatype FileRecord = FileRecord(
    id: string, name: string, size: nat, mimeType: string,
    folder: string, owner: string, storedFile: string)

  /**
   * What persistent storage holds under `authToken` and `currentUser`. A stored
   * user that does not parse back is read as absent, so it is `None` here.
   */
  datatype Session = Session(token: Option<string>, user: Option<User>)

  /** The session before any login. */
  const Empty: Session := Session(None, None)

  /** `isAuthenticated`: a token is stored and it is not the empty string. */
  function IsAuthenticated(s: Session): (b: bool)
    ensures b <==> s.token.Some? && s.token.value != ""
  {
    s.token.GetOr("") != ""
  }

  /** `currentUser?.id`, when it is truthy. */
  function UserId(s: Session): (r: Option<string>)
    ensures r.Some? <==> s.user.Some? && s.user.value.id != ""
    ensures r.Some? ==> r.value == s.user.value.id && r.value != ""
  {
    if s.user.Some? && s.user.value.id != "" then Some(s.user.value.id) else None
  }

  /**
   * What `localStorage.setItem` keeps for a field of the reply: the string
   * itself, or the text "undefined" when the field is missing.
   */
  function StoredText(v: Option<string>): (r: string)
    ensures v.Some? ==> r == v.value
    ensures v.None? ==> r != ""
  {
    match v
    case Some(t) => t
    case None => "undefined"
  }

  /** `logout`: both keys are removed; no request is made and nothing can fail. */
  function Logout(s: Session): (r: Session)
    ensures r.token.None? && r.user.None?
    ensures !IsAuthenticated(r)
    ensures UserId(r).None?
  {
    Empty
  }

  // ---------------------------------------------------------------------------
  // Wire
  // ---------------------------------------------------------------------------

  /** The requests the client can issue, with the fields it sends. */
  datatype Request =
    | AuthWithPassword(identity: string, password: string)
    | CreateUser(username: string, password: string, passwordConfirm: string)
    | ListFiles(folder: string)
    | ListFolders
    | CreateFolderRecord(name: string, owner: string)
    | UploadFileRecord(name: string, size: nat, mimeType: string, folder: string, owner: string)
    | DeleteFileRecord(id: string)
    | DeleteFolderRecord(id: string)

  /**
   * The fields of a JSON reply the client reads: `record`, `token`, `items`,
   * the top-level `message` and `data.message`. Which record `record` holds
   * depends on the call: for login it is the reply's `record` field, while
   * folder creation and upload return the whole parsed body as their data, so
   * for them `record` is the body read as a record.
   */
  datatype Body<T> = Body(
    record: Option<T>, token: Option<string>, items: Option<seq<T>>,
    message: Option<string>, dataMessage: Option<string>)

  /** One HTTP exchange as the client sees it; a `None` body is one that is not JSON. */
  datatype Reply<T> = NetworkError | Response(status: int, body: Option<Body<T>>) {
    /** `response.ok`. */
    predicate Ok() {
      Response? && 200 <= status < 300
    }
  }

  /** The uniform result envelope. */
  datatype Envelope<T> = Success(data: T) | Failure(error: string)

  /** How an operation's promise settles: with a value, by rejecting, or never. */
  datatype Call<T> = Resolved(value: T) | Rejected | Pending

  /** An operation's effect: the session afterwards, the request sent, the settlement. */
  datatype Exchange<T> = Exchange(session: Session, sent: Option<Request>, result: Call<T>)

  /** A settlement that carries an error message carries a non-empty one. */
  predicate ErrorsNonEmpty<T>(c: Call<Envelope<T>>) {
    c.Resolved? && c.value.Failure? ==> c.value.error != ""
  }

  /** `m || fallback`: the reply's message when it is a non-empty string, else the fallback. */
  function MessageOr(m: Option<string>, fallback: string): (r: string)
    ensures m.Some? && m.value != "" ==> r == m.value
    ensures m.None? || m.value == "" ==> r == fallback
    ensures fallback != "" ==> r != ""
  {
    if m.Some? && m.value != "" then m.value else fallback
  }

  // ---------------------------------------------------------------------------
  // AuthAPI
  // ---------------------------------------------------------------------------

  /**
   * `login`: posts the credentials, then reads the body as JSON before looking
   * at the status, so a transport failure or a non-JSON body rejects.
   */
  function Login(s: Session, identifier: string, password: string, reply: Reply<User>): (x: Exchange<Envelope<()>>)
    ensures x.sent == Some(AuthWithPassword(identifier, password))
    ensures reply.NetworkError? || reply.body.None? ==> x.result == Rejected && x.session == s
    ensures reply.Ok() && reply.body.Some? ==>
      && x.result == Resolved(Success(()))
      && x.session.user == reply.body.value.record
      && (reply.body.value.token != Some("") ==> IsAuthenticated(x.session))
      && (reply.body.value.token.Some? ==> x.session.token == reply.body.value.token)
    ensures reply.Response? && !reply.Ok() && reply.body.Some? ==>
      && x.result == Resolved(Failure(MessageOr(reply.body.value.dataMessage, "Login failed")))
      && x.session == s
    ensures ErrorsNonEmpty(x.result)
  {
    var sent := Some(AuthWithPassword(identifier, password));
    match reply
    case NetworkError => Exchange(s, sent, Rejected)
    case Response(status, body) =>
      if body.None? then Exchange(s, sent, Rejected)
      else if reply.Ok() then
        Exchange(Session(Some(StoredText(body.value.token)), body.value.record), sent, Resolved(Success(())))
      else
        Exchange(s, sent, Resolved(Failure(MessageOr(body.value.dataMessage, "Login failed"))))
  }

  /** `register`: posts the new account; the session is never touched. */
  function Register(s: Session, username: string, password: string, passwordConfirm: string, reply: Reply<User>): (x: Exchange<Envelope<()>>)
    ensures x.session == s
    ensures x.sent == Some(CreateUser(username, password, passwordConfirm))
    ensures reply.NetworkError? || reply.body.None? ==> x.result == Rejected
    ensures reply.Ok() && reply.body.Some? ==> x.result == Resolved(Success(()))
    ensures reply.Response? && !reply.Ok() && reply.body.Some? ==>
      x.result == Resolved(Failure(MessageOr(reply.body.value.dataMessage, "Registration failed")))
    ensures ErrorsNonEmpty(x.result)
  {
    var sent := Some(CreateUser(username, password, passwordConfirm));
    match reply
    case NetworkError => Exchange(s, sent, Rejected)
    case Response(status, body) =>
      if body.None? then Exchange(s, sent, Rejected)
      else if reply.Ok() then Exchange(s, sent, Resolved(Success(())))
      else Exchange(s, sent, Resolved(Failure(MessageOr(body.value.dataMessage, "Registration failed"))))
  }

  // ---------------------------------------------------------------------------
  // Listing: FilesAPI.getFiles and FoldersAPI.getFolders
  // ---------------------------------------------------------------------------

  /**
   * The list a listing reply yields: empty for a non-ok status (the body is not
   * read), the `items` of an ok JSON body or empty when it has none; `None`
   * when the promise rejects.
   */
  function ListingOf<T>(reply: Reply<T>): (r: Option<seq<T>>)
    ensures r.None? <==> reply.NetworkError? || (reply.Ok() && reply.body.None?)
    ensures reply.Response? && !reply.Ok() ==> r == Some([])
    ensures reply.Ok() && reply.body.Some? ==> r == Some(reply.body.value.items.GetOr([]))
    ensures r.Some? && r.value != [] ==> reply.Ok() && reply.body.Some? && reply.body.value.items == r
  {
    match reply
    case NetworkError => None
    case Response(status, body) =>
      if !reply.Ok() then Some([])
      else if body.None? then None
      else Some(body.value.items.GetOr([]))
  }

  /** `getFiles`: an empty folder id yields `[]` without a request. */
  function GetFiles(s: Session, folderId: string, reply: Reply<FileRecord>): (x: Exchange<seq<FileRecord>>)
    ensures x.session == s
    ensures folderId == "" ==> x.sent.None? && x.result == Resolved([])
    ensures folderId != "" ==> x.sent == Some(ListFiles(folderId))
    ensures folderId != "" && reply.Response? && !reply.Ok() ==> x.result == Resolved([])
    ensures folderId != "" && reply.Ok() && reply.body.Some? ==>
      x.result == Resolved(reply.body.value.items.GetOr([]))
    ensures folderId != "" ==> (x.result == Rejected <==> reply.NetworkError? || (reply.Ok() && reply.body.None?))
    ensures x.result != Pending
  {
    if folderId == "" then Exchange(s, None, Resolved([]))
    else
      var sent := Some(ListFiles(folderId));
      match ListingOf(reply)
      case None => Exchange(s, sent, Rejected)
      case Some(items) => Exchange(s, sent, Resolved(items))
  }

  /** `getFolders`: always one request; the same empty-on-failure rule as `getFiles`. */
  function GetFolders(s: Session, reply: Reply<Folder>): (x: Exchange<seq<Folder>>)
    ensures x.session == s
    ensures x.sent == Some(ListFolders)
    ensures reply.Response? && !reply.Ok() ==> x.result == Resolved([])
    ensures reply.Ok() && reply.body.Some? ==> x.result == Resolved(reply.body.value.items.GetOr([]))
    ensures x.result == Rejected <==> reply.NetworkError? || (reply.Ok() && reply.body.None?)
    ensures x.result.Resolved? && x.result.value != [] ==>
      reply.Ok() && reply.body.Some? && reply.body.value.items == Some(x.result.value)
    ensures x.result != Pending
  {
    match ListingOf(reply)
    case None => Exchange(s, Some(ListFolders), Rejected)
    case Some(items) => Exchange(s, Some(ListFolders), Resolved(items))
  }

  // ---------------------------------------------------------------------------
  // FilesAPI.uploadFile
  // ---------------------------------------------------------------------------

  const MissingUploadInfo: string := "Cannot upload file: missing folder or user information."
  const UploadNetworkError: string := "A network error occurred during the upload."
  const UploadFailed: string := "Upload failed"

  /** The multipart request for `file` into `folderId`, owned by `owner`. */
  function UploadRequest(file: LocalFile, folderId: string, owner: string): Request {
    UploadFileRecord(file.name, file.size, file.mimeType, folderId, owner)
  }

  /**
   * `uploadFile` as written: the load listener parses the response text with no
   * guard, so a body that is not JSON throws inside the listener and the
   * promise is never resolved. A transport failure is the `error` event.
   */
  function UploadFileAsWritten(s: Session, file: LocalFile, folderId: string, reply: Reply<FileRecord>): (x: Exchange<Envelope<Option<FileRecord>>>)
    ensures x.session == s
    ensures x.sent.Some? <==> folderId != "" && UserId(s).Some?
    ensures x.result == Pending <==> x.sent.Some? && reply.Response? && reply.body.None?
  {
    if folderId == "" || UserId(s).None? then
      Exchange(s, None, Resolved(Failure(MissingUploadInfo)))
    else
      var sent := Some(UploadRequest(file, folderId, UserId(s).value));
      match reply
      case NetworkError => Exchange(s, sent, Resolved(Failure(UploadNetworkError)))
      case Response(status, body) =>
        if body.None? then Exchange(s, sent, Pending)
        else if reply.Ok() then Exchange(s, sent, Resolved(Success(body.value.record)))
        else Exchange(s, sent, Resolved(Failure(MessageOr(body.value.message, UploadFailed))))
  }

  /** An upload whose reply is a 502 page in HTML never settles. */
  lemma UploadHangsOnNonJsonReply(file: LocalFile)
    ensures UploadFileAsWritten(Session(Some("t"), Some(User("u1", "alice"))), file, "f1", Response(502, None)).result == Pending
  {
  }

  /**
   * `uploadFile` with an unparseable body no longer fatal: the status alone
   * decides success (with no record to report) or failure (with the fallback
   * message), so that every call ends in exactly one envelope.
   */
  function UploadFile(s: Session, file: LocalFile, folderId: string, reply: Reply<FileRecord>): (x: Exchange<Envelope<Option<FileRecord>>>)
    ensures x.session == s
    ensures x.result.Resolved?
    ensures folderId == "" || UserId(s).None? ==>
      x.sent.None? && x.result.value == Failure(MissingUploadInfo)
    ensures folderId != "" && UserId(s).Some? ==>
      && x.sent == Some(UploadRequest(file, folderId, UserId(s).value))
      && (reply.NetworkError? ==> x.result.value == Failure(UploadNetworkError))
      && (reply.Ok() <==> x.result.value.Success?)
      && (reply.Ok() && reply.body.Some? ==> x.result.value.data == reply.body.value.record)
      && (reply.Ok() && reply.body.None? ==> x.result.value == Success(None))
      && (reply.Response? && !reply.Ok() ==>
            x.result.value == Failure(MessageOr(if reply.body.Some? then reply.body.value.message else None, UploadFailed)))
    ensures ErrorsNonEmpty(x.result)
  {
    if folderId == "" || UserId(s).None? then
      Exchange(s, None, Resolved(Failure(MissingUploadInfo)))
    else
      var sent := Some(UploadRequest(file, folderId, UserId(s).value));
      match reply
      case NetworkError => Exchange(s, sent, Resolved(Failure(UploadNetworkError)))
      case Response(status, body) =>
        if !reply.Ok() then
          var message := if body.Some? then body.value.message else None;
          Exchange(s, sent, Resolved(Failure(MessageOr(message, UploadFailed))))
        else if body.None? then Exchange(s, sent, Resolved(Success(None)))
        else Exchange(s, sent, Resolved(Success(body.value.record)))
  }

  /** Wherever the code as written settles, the corrected upload settles the same way. */
  lemma UploadFileAgreesWhenSettled(s: Session, file: LocalFile, folderId: string, reply: Reply<FileRecord>)
    requires UploadFileAsWritten(s, file, folderId, reply).result != Pending
    ensures UploadFile(s, file, folderId, reply) == UploadFileAsWritten(s, file, folderId, reply)
  {
  }

  // ---------------------------------------------------------------------------
  // Deletion
  // ---------------------------------------------------------------------------

  const DeleteFileFailed: string := "Failed to delete file."
  const DeleteFolderFailed: string := "Failed to delete folder. It may not be empty."

  /** The envelope of a delete: only the status matters, the body is never read. */
  function DeleteOutcome<T>(reply: Reply<T>, failure: string): (c: Call<Envelope<()>>)
    ensures reply.NetworkError? <==> c == Rejected
    ensures reply.Ok() <==> c == Resolved(Success(()))
    ensures reply.Response? && !reply.Ok() <==> c == Resolved(Failure(failure))
  {
    match reply
    case NetworkError => Rejected
    case Response(_, _) => if reply.Ok() then Resolved(Success(())) else Resolved(Failure(failure))
  }

  /** `deleteFile`: one request naming the file; any non-ok status gives the fixed message. */
  function DeleteFile<T>(s: Session, fileId: string, reply: Reply<T>): (x: Exchange<Envelope<()>>)
    ensures x.session == s
    ensures x.sent == Some(DeleteFileRecord(fileId))
    ensures reply.Response? && !reply.Ok() ==> x.result == Resolved(Failure(DeleteFileFailed))
    ensures reply.Ok() ==> x.result == Resolved(Success(()))
    ensures reply.NetworkError? ==> x.result == Rejected
  {
    Exchange(s, Some(DeleteFileRecord(fileId)), DeleteOutcome(reply, DeleteFileFailed))
  }

  /** `deleteFolder`: the same shape, with the "may not be empty" message. */
  function DeleteFolder<T>(s: Session, folderId: string, reply: Reply<T>): (x: Exchange<Envelope<()>>)
    ensures x.session == s
    ensures x.sent == Some(DeleteFolderRecord(folderId))
    ensures reply.Response? && !reply.Ok() ==> x.result == Resolved(Failure(DeleteFolderFailed))
    ensures reply.Ok() ==> x.result == Resolved(Success(()))
    ensures reply.NetworkError? ==> x.result == Rejected
  {
    Exchange(s, Some(DeleteFolderRecord(folderId)), DeleteOutcome(reply, DeleteFolderFailed))
  }

  /** Deletes ignore the reply body: two replies with the same status give the same result. */
  lemma DeleteIgnoresBody<T>(s: Session, id: string, status: int, b1: Option<Body<T>>, b2: Option<Body<T>>)
    ensures DeleteFile(s, id, Response(status, b1)) == DeleteFile(s, id, Response(status, b2))
    ensures DeleteFolder(s, id, Response(status, b1)) == DeleteFolder(s, id, Response(status, b2))
  {
  }

  // ---------------------------------------------------------------------------
  // FoldersAPI.createFolder
  // ---------------------------------------------------------------------------

  const UserNotFound: string := "User not found."
  const FolderCreationFailed: string := "Folder creation failed"

  /** `createFolder`: needs a cached user id, else fails locally without a request. */
  function CreateFolder(s: Session, name: string, reply: Reply<Folder>): (x: Exchange<Envelope<Option<Folder>>>)
    ensures x.session == s
    ensures UserId(s).None? ==> x.sent.None? && x.result == Resolved(Failure(UserNotFound))
    ensures UserId(s).Some? ==>
      && x.sent == Some(CreateFolderRecord(name, UserId(s).value))
      && (x.result == Rejected <==> reply.NetworkError? || reply.body.None?)
      && (reply.Ok() && reply.body.Some? ==> x.result == Resolved(Success(reply.body.value.record)))
      && (reply.Response? && !reply.Ok() && reply.body.Some? ==>
            x.result == Resolved(Failure(MessageOr(reply.body.value.dataMessage, FolderCreationFailed))))
    ensures ErrorsNonEmpty(x.result)
    ensures x.result != Pending
  {
    match UserId(s)
    case None => Exchange(s, None, Resolved(Failure(UserNotFound)))
    case Some(owner) =>
      var sent := Some(CreateFolderRecord(name, owner));
      match reply
      case NetworkError => Exchange(s, sent, Rejected)
      case Response(status, body) =>
        if body.None? then Exchange(s, sent, Rejected)
        else if reply.Ok() then Exchange(s, sent, Resolved(Success(body.value.record)))
        else Exchange(s, sent, Resolved(Failure(MessageOr(body.value.dataMessage, FolderCreationFailed))))
  }

  // ---------------------------------------------------------------------------
  // Properties across operations
  // ---------------------------------------------------------------------------

  /** A successful login with a real token authenticates, and logging out undoes it. */
  lemma LoginThenLogout(s: Session, id: string, pw: string, token: string, user: User)
    requires token != ""
    ensures var after := Login(s, id, pw, Response(200, Some(Body(Some(user), Some(token), None, None, None)))).session;
      && IsAuthenticated(after)
      && after.user == Some(user)
      && !IsAuthenticated(Logout(after))
  {
  }

  /**
   * After a successful login the session is authenticated unless the reply's
   * token was the empty string; a reply with no token at all still
   * authenticates, because the text "undefined" is stored in its place.
   */
  lemma LoginAuthenticatesUnlessTokenEmpty(s: Session, id: string, pw: string, reply: Reply<User>)
    requires reply.Ok() && reply.body.Some?
    ensures IsAuthenticated(Login(s, id, pw, reply).session) <==> reply.body.value.token != Some("")
    ensures reply.body.value.token.None? ==> IsAuthenticated(Login(s, id, pw, reply).session)
  {
  }

  /** A rejected login leaves an unauthenticated session unauthenticated and names the backend's reason. */
  lemma LoginRejectedScenario()
    ensures var x := Login(Empty, "alice", "wrongpass",
                           Response(400, Some(Body(None, None, None, None, Some("Invalid credentials")))));
      && x.result == Resolved(Failure("Invalid credentials"))
      && !IsAuthenticated(x.session)
  {
  }

  /** Only login and logout change the session: every other operation returns it unchanged. */
  lemma OnlyLoginAndLogoutChangeSession<T>(s: Session, name: string, file: LocalFile, id: string,
                                           ru: Reply<User>, rf: Reply<FileRecord>, rd: Reply<Folder>, rt: Reply<T>)
    ensures Register(s, name, name, name, ru).session == s
    ensures GetFiles(s, id, rf).session == s
    ensures GetFolders(s, rd).session == s
    ensures UploadFile(s, file, id, rf).session == s
    ensures CreateFolder(s, name, rd).session == s
    ensures DeleteFile(s, id, rt).session == s
    ensures DeleteFolder(s, id, rt).session == s
  {
  }
}

=== FILE: auth.dfy ===
/**
 * The login and registration pages: the "already signed in" redirect and the
 * ordered field checks that decide which message is shown or whether the
 * account API is called at all.
 */
module Auth {
  import opened Common
  import Text
  import Utils
  import opened Api

  /** Where the page goes after a handler. */
  datatype Page = StayHere | ToDashboard | ToSignIn

  /** What opening an auth page does. */
  datatype Opening = RedirectToDashboard | InitForms

  /** The page's load handler: a stored token sends the user straight to the dashboard. */
  function OnPageLoad(s: Session): (o: Opening)
    ensures o == RedirectToDashboard <==> IsAuthenticated(s)
  {
    if IsAuthenticated(s) then RedirectToDashboard else InitForms
  }

  /** The field checks, in the order the registration form runs them. */
  datatype Problem = MissingField | UsernameTooShort | PasswordTooShort | PasswordMismatch

  /** The message each failed check shows. */
  function ProblemText(p: Problem): (m: string)
    ensures p == MissingField <==> m == "Please fill in all fields"
    ensures p == UsernameTooShort <==> m == "Username must be at least 3 characters"
    ensures p == PasswordTooShort <==> m == "Password must be at least 6 characters"
    ensures p == PasswordMismatch <==> m == "Passwords do not match"
  {
    match p
    case MissingField => "Please fill in all fields"
    case UsernameTooShort => "Username must be at least 3 characters"
    case PasswordTooShort => "Password must be at least 6 characters"
    case PasswordMismatch => "Passwords do not match"
  }

  /** Position of a check in the chain. */
  function Rank(p: Problem): nat {
    match p
    case MissingField => 0
    case UsernameTooShort => 1
    case PasswordTooShort => 2
    case PasswordMismatch => 3
  }

  /** Whether check `p` on its own fails for these (already trimmed) fields. */
  predicate Fails(p: Problem, username: string, password: string, confirm: string) {
    match p
    case MissingField => username == "" || password == "" || confirm == ""
    case UsernameTooShort => |username| < 3
    case PasswordTooShort => |password| < 6
    case PasswordMismatch => password != confirm
  }

  /** The registration chain: the first failing check, or none. */
  function RegisterProblem(username: string, password: string, confirm: string): (r: Option<Problem>)
    ensures r.None? <==> forall p :: !Fails(p, username, password, confirm)
    ensures r.Some? ==> Fails(r.value, username, password, confirm)
  {
    if username == "" || password == "" || confirm == "" then
      assert Fails(MissingField, username, password, confirm);
      Some(MissingField)
    else if |username| < 3 then
      assert Fails(UsernameTooShort, username, password, confirm);
      Some(UsernameTooShort)
    else if |password| < 6 then
      assert Fails(PasswordTooShort, username, password, confirm);
      Some(PasswordTooShort)
    else if password != confirm then
      assert Fails(PasswordMismatch, username, password, confirm);
      Some(PasswordMismatch)
    else None
  }

  /** The chain reports exactly the earliest failing check. */
  lemma RegisterProblemIsFirstFailure(username: string, password: string, confirm: string, p: Problem)
    ensures RegisterProblem(username, password, confirm) == Some(p) <==>
      Fails(p, username, password, confirm) &&
      forall q :: Rank(q) < Rank(p) ==> !Fails(q, username, password, confirm)
  {
  }

  /** An empty confirmation is always reported as a missing field, never as a mismatch. */
  lemma EmptyConfirmIsMissingField(username: string, password: string)
    ensures RegisterProblem(username, password, "") == Some(MissingField)
  {
  }

  /** Everything passes exactly when the four conditions hold together. */
  lemma RegisterProblemNoneExactly(username: string, password: string, confirm: string)
    ensures RegisterProblem(username, password, confirm).None? <==>
      username != "" && |username| >= 3 && |password| >= 6 && password == confirm
  {
    if RegisterProblem(username, password, confirm).None? {
      assert !Fails(MissingField, username, password, confirm);
      assert !Fails(UsernameTooShort, username, password, confirm);
      assert !Fails(PasswordTooShort, username, password, confirm);
      assert !Fails(PasswordMismatch, username, password, confirm);
    }
  }

  /** What a form submission did. */
  datatype Submission = Submission(session: Session, sent: Option<Request>, notice: Utils.Notice, next: Page)

  const NetworkTrouble: string := "Network error. Please try again."

  /**
   * The login form: the username is trimmed, the password is not; the API is
   * called only when both are non-empty.
   */
  function SubmitLogin(s: Session, rawUsername: string, password: string, reply: Reply<User>): (r: Submission)
    ensures r.sent.Some? <==> Text.Trim(rawUsername) != "" && password != ""
    ensures r.sent.Some? ==> r.sent == Some(AuthWithPassword(Text.Trim(rawUsername), password))
    ensures r.sent.None? ==>
      r.session == s && r.notice == Utils.Notice(Utils.Error, ProblemText(MissingField)) && r.next == StayHere
    ensures r.next == ToDashboard ==> r.sent.Some? && reply.Ok()
    ensures r.session != s ==> r.next == ToDashboard
    ensures r.sent.Some? ==>
      var x := Login(s, Text.Trim(rawUsername), password, reply);
      && r.session == x.session
      && (r.next == ToDashboard <==> x.result == Resolved(Success(())))
      && (x.result == Resolved(Success(())) ==> r.notice == Utils.Notice(Utils.Success, "Login successful!"))
      && (x.result.Resolved? && x.result.value.Failure? ==> r.notice == Utils.Notice(Utils.Error, x.result.value.error))
      && (x.result == Rejected ==> r.notice == Utils.Notice(Utils.Error, NetworkTrouble))
  {
    var username := Text.Trim(rawUsername);
    if username == "" || password == "" then
      Submission(s, None, Utils.Notice(Utils.Error, ProblemText(MissingField)), StayHere)
    else
      var x := Login(s, username, password, reply);
      match x.result
      case Resolved(Success(_)) => Submission(x.session, x.sent, Utils.Notice(Utils.Success, "Login successful!"), ToDashboard)
      case Resolved(Failure(e)) => Submission(x.session, x.sent, Utils.Notice(Utils.Error, e), StayHere)
      case _ => Submission(x.session, x.sent, Utils.Notice(Utils.Error, NetworkTrouble), StayHere)
  }

  /**
   * The registration form: the trimmed username and the untrimmed passwords
   * go through the chain; only a clean pass calls `register`.
   */
  function SubmitRegister(s: Session, rawUsername: string, password: string, confirm: string, reply: Reply<User>): (r: Submission)
    ensures r.session == s
    ensures r.sent.Some? <==> RegisterProblem(Text.Trim(rawUsername), password, confirm).None?
    ensures r.sent.Some? ==> r.sent == Some(CreateUser(Text.Trim(rawUsername), password, confirm))
    ensures r.sent.None? ==>
      && r.notice == Utils.Notice(Utils.Error, ProblemText(RegisterProblem(Text.Trim(rawUsername), password, confirm).value))
      && r.next == StayHere
    ensures r.next == ToSignIn ==> r.sent.Some? && reply.Ok()
    ensures r.sent.Some? ==>
      var x := Register(s, Text.Trim(rawUsername), password, confirm, reply);
      && (r.next == ToSignIn <==> x.result == Resolved(Success(())))
      && (x.result == Resolved(Success(())) ==>
            r.notice == Utils.Notice(Utils.Success, "Account created successfully! Please sign in."))
      && (x.result.Resolved? && x.result.value.Failure? ==> r.notice == Utils.Notice(Utils.Error, x.result.value.error))
      && (x.result == Rejected ==> r.notice == Utils.Notice(Utils.Error, NetworkTrouble))
  {
    var username := Text.Trim(rawUsername);
    match RegisterProblem(username, password, confirm)
    case Some(p) => Submission(s, None, Utils.Notice(Utils.Error, ProblemText(p)), StayHere)
    case None =>
      var x := Register(s, username, password, confirm, reply);
      match x.result
      case Resolved(Success(_)) =>
        Submission(x.session, x.sent, Utils.Notice(Utils.Success, "Account created successfully! Please sign in."), ToSignIn)
      case Resolved(Failure(e)) => Submission(x.session, x.sent, Utils.Notice(Utils.Error, e), StayHere)
      case _ => Submission(x.session, x.sent, Utils.Notice(Utils.Error, NetworkTrouble), StayHere)
  }

  /** `register` is called exactly when all four conditions hold for the trimmed username. */
  lemma RegisterCalledExactly(s: Session, rawUsername: string, password: string, confirm: string, reply: Reply<User>)
    ensures SubmitRegister(s, rawUsername, password, confirm, reply).sent.Some? <==>
      var u := Text.Trim(rawUsername);
      u != "" && |u| >= 3 && |password| >= 6 && password == confirm
  {
    RegisterProblemNoneExactly(Text.Trim(rawUsername), password, confirm);
  }

  /** White space around the username never changes what the login form sends. */
  lemma LoginUsernameTrimmed(s: Session, pre: string, name: string, post: string, password: string, reply: Reply<User>)
    requires Text.AllSpace(pre) && Text.AllSpace(post)
    requires Text.Trim(name) == name && name != "" && password != ""
    ensures SubmitLogin(s, pre + name + post, password, reply).sent == Some(AuthWithPassword(name, password))
  {
    Text.TrimSurrounded(pre, name, post);
  }

  /** A blank username never reaches the API, whatever the password. */
  lemma BlankUsernameNotSent(s: Session, blank: string, password: string, reply: Reply<User>)
    requires Text.AllSpace(blank)
    ensures SubmitLogin(s, blank, password, reply).sent.None?
  {
  }
}

=== FILE: common.dfy ===
/** Small shared datatypes: optional values and the browser's view of a chosen file. */
module Common {

  /** A value that may be absent: JavaScript's `null`/`undefined` versus a present value. */
  datatype Option<+T> = None | Some(value: T) {

    /** The present value, or `default` when absent. */
    function GetOr(default: T): T {
      match this
      case Some(v) => v
      case None => default
    }
  }

  /** The fields of a browser `File` object that the client reads: its name, byte size and MIME type. */
  datatype LocalFile = LocalFile(name: string, size: nat, mimeType: string)
}

=== FILE: dashboard.dfy ===
/**
 * The dashboard controller as a state machine over the selected folder, the
 * item pending deletion and whether the delete confirmation is open.
 *
 * Each handler maps the state, the session and the replies it awaits to a
 * `Step`: the next state, the requests it sent itself, the notices it showed,
 * the folders whose file list it (re)loads, and whether its promise rejected
 * part-way. A file-list load that a handler starts without awaiting it is
 * recorded in `reloads`; `LoadFiles` models that load on its own reply.
 */
module Dashboard {
  import opened Common
  import Text
  import Utils
  import opened Api

  /** The two kinds of item the delete confirmation can be about. */
  datatype ItemKind = FileItem | FolderItem

  /** `itemToDelete`: `{ id, name, type }`. */
  datatype DeleteTarget = DeleteTarget(id: string, name: string, kind: ItemKind)

  /** The controller's state; `selectedFolderId` is "" when no folder is selected. */
  datatype State = State(selectedFolderId: string, itemToDelete: Option<DeleteTarget>, confirmOpen: bool)

  /** The state when the page opens. */
  const Initial: State := State("", None, false)

  /** What one handler did. */
  datatype Step = Step(state: State, sent: seq<Request>, notices: seq<Utils.Notice>, reloads: seq<string>, rejected: bool)

  /** A handler that did nothing at all. */
  function Idle(st: State): Step {
    Step(st, [], [], [], false)
  }

  /** The request of an exchange, if one was sent, as a sequence. */
  function SentOf<T>(x: Exchange<T>): (r: seq<Request>)
    ensures |r| <= 1
    ensures x.sent.Some? ==> r == [x.sent.value]
    ensures x.sent.None? ==> r == []
  {
    if x.sent.Some? then [x.sent.value] else []
  }

  // ---------------------------------------------------------------------------
  // Folder list and selection
  // ---------------------------------------------------------------------------

  /** Some loaded folder has this id. */
  predicate HasFolder(folders: seq<Folder>, id: string) {
    exists i :: 0 <= i < |folders| && folders[i].id == id
  }

  /** `folders.find(f => f.id === id)` found something. */
  function FindFolder(folders: seq<Folder>, id: string): (found: bool)
    ensures found <==> HasFolder(folders, id)
  {
    if |folders| == 0 then false
    else folders[0].id == id || FindFolder(folders[1..], id)
  }

  /**
   * The select's value after the options are rebuilt: the previous value if a
   * folder still has it, else the first folder's id, else "".
   */
  function SelectAfterLoad(previous: string, folders: seq<Folder>): (sel: string)
    ensures previous != "" && HasFolder(folders, previous) ==> sel == previous
    ensures (previous == "" || !HasFolder(folders, previous)) && |folders| > 0 ==> sel == folders[0].id
    ensures |folders| == 0 ==> sel == ""
    ensures sel == "" || HasFolder(folders, sel)
  {
    var kept := if FindFolder(folders, previous) then previous else "";
    if |folders| > 0 && kept == "" then folders[0].id else kept
  }

  /** Reloading an unchanged folder list keeps whatever the first load selected. */
  lemma ReloadKeepsSelection(previous: string, folders: seq<Folder>)
    ensures SelectAfterLoad(SelectAfterLoad(previous, folders), folders) == SelectAfterLoad(previous, folders)
  {
  }

  /**
   * `loadFolders`: fetch the folders, keep or pick a selection, and start
   * loading its files. A rejected fetch leaves everything as it was.
   */
  function LoadFolders(st: State, s: Session, reply: Reply<Folder>): (r: Step)
    ensures r.sent == [ListFolders]
    ensures r.notices == []
    ensures r.state.itemToDelete == st.itemToDelete && r.state.confirmOpen == st.confirmOpen
    ensures r.rejected <==> GetFolders(s, reply).result == Rejected
    ensures r.rejected ==> r.state == st && r.reloads == []
    ensures !r.rejected ==>
      var folders := GetFolders(s, reply).result.value;
      && r.state.selectedFolderId == SelectAfterLoad(st.selectedFolderId, folders)
      && (r.state.selectedFolderId == "" || HasFolder(folders, r.state.selectedFolderId))
      && r.reloads == [r.state.selectedFolderId]
  {
    var x := GetFolders(s, reply);
    match x.result
    case Resolved(folders) =>
      var sel := SelectAfterLoad(st.selectedFolderId, folders);
      Step(st.(selectedFolderId := sel), [ListFolders], [], [sel], false)
    case _ => Step(st, [ListFolders], [], [], true)
  }

  /** The `change` listener of the folder select: the new value becomes the selection. */
  function SelectFolder(st: State, value: string): (r: Step)
    ensures r.state.selectedFolderId == value
    ensures r.state.itemToDelete == st.itemToDelete && r.state.confirmOpen == st.confirmOpen
    ensures r.sent == [] && r.reloads == [value]
    ensures !r.rejected && r.notices == []
  {
    Step(st.(selectedFolderId := value), [], [], [value], false)
  }

  // ---------------------------------------------------------------------------
  // File list
  // ---------------------------------------------------------------------------

  /** One file tile: the record, its category and its download path. */
  datatype Tile = Tile(file: FileRecord, category: Utils.FileType, downloadPath: string)

  /** What the file grid shows. */
  datatype View = SelectFolderPrompt | EmptyFolder | Grid(tiles: seq<Tile>)

  /** The download path of a stored file. */
  function DownloadPath(f: FileRecord): string {
    "/api/files/files/" + f.id + "/" + f.storedFile
  }

  /** The tile `createFileElement` builds for one file. */
  function TileOf(f: FileRecord): (t: Tile)
    ensures t.file == f
    ensures t.category == Utils.GetFileType(f.name)
    ensures t.downloadPath == "/api/files/files/" + f.id + "/" + f.storedFile
  {
    Tile(f, Utils.GetFileType(f.name), DownloadPath(f))
  }

  /** The tiles for a list of files, in order. */
  function Tiles(files: seq<FileRecord>): (ts: seq<Tile>)
    ensures |ts| == |files|
    ensures forall i :: 0 <= i < |files| ==> ts[i] == TileOf(files[i])
  {
    seq(|files|, i requires 0 <= i < |files| => TileOf(files[i]))
  }

  /** Each tile carries its file and that file's `getFileType` category. */
  lemma TilesCategorised(files: seq<FileRecord>, i: int)
    requires 0 <= i < |files|
    ensures Tiles(files)[i].file == files[i]
    ensures Tiles(files)[i].category == Utils.GetFileType(files[i].name)
  {
  }

  /** The result of `loadFiles`: the request it sent and the grid it rendered (`None`: left as it was). */
  datatype FilesLoad = FilesLoad(sent: seq<Request>, view: Option<View>)

  /** `loadFiles`: no folder means a prompt and no request; otherwise the folder's files. */
  function LoadFiles(s: Session, folderId: string, reply: Reply<FileRecord>): (r: FilesLoad)
    ensures folderId == "" ==> r.sent == [] && r.view == Some(SelectFolderPrompt)
    ensures folderId != "" ==> r.sent == [ListFiles(folderId)]
    ensures r.view == Some(EmptyFolder) ==> folderId != ""
    ensures r.view.None? <==> folderId != "" && GetFiles(s, folderId, reply).result == Rejected
    ensures r.view.Some? && r.view.value.Grid? ==>
      var x := GetFiles(s, folderId, reply);
      && x.result.Resolved? && |x.result.value| > 0
      && |r.view.value.tiles| == |x.result.value|
      && forall i :: 0 <= i < |x.result.value| ==> r.view.value.tiles[i].file == x.result.value[i]
    ensures folderId != "" && GetFiles(s, folderId, reply).result.Resolved? ==>
      var files := GetFiles(s, folderId, reply).result.value;
      r.view == Some(if |files| == 0 then EmptyFolder else Grid(Tiles(files)))
  {
    if folderId == "" then FilesLoad([], Some(SelectFolderPrompt))
    else
      var x := GetFiles(s, folderId, reply);
      match x.result
      case Resolved(files) =>
        if |files| == 0 then FilesLoad(SentOf(x), Some(EmptyFolder))
        else
          FilesLoad(SentOf(x), Some(Grid(Tiles(files))))
      case _ => FilesLoad(SentOf(x), None)
  }

  /**
   * What an ok listing reply renders: its `items` as tiles, or the empty-folder
   * message when it has none; a non-ok status renders as an empty folder.
   */
  lemma LoadFilesShowsItems(s: Session, folderId: string, reply: Reply<FileRecord>)
    requires folderId != "" && reply.Response?
    requires reply.Ok() ==> reply.body.Some?
    ensures reply.Ok() ==>
      var items := reply.body.value.items.GetOr([]);
      LoadFiles(s, folderId, reply).view == Some(if |items| == 0 then EmptyFolder else Grid(Tiles(items)))
    ensures !reply.Ok() ==> LoadFiles(s, folderId, reply).view == Some(EmptyFolder)
  {
  }

  // ---------------------------------------------------------------------------
  // Upload and folder creation
  // ---------------------------------------------------------------------------

  /**
   * `handleFileUpload` for one chosen file, on the corrected upload: nothing is
   * sent without a selected folder; a successful upload reloads that folder.
   */
  function HandleFileUpload(st: State, s: Session, file: LocalFile, reply: Reply<FileRecord>): (r: Step)
    ensures r.state == st
    ensures !r.rejected
    ensures st.selectedFolderId == "" ==>
      r.sent == [] && r.reloads == [] && r.notices == [Utils.Notice(Utils.Error, "Please select a folder first.")]
    ensures st.selectedFolderId != "" ==>
      && r.sent == SentOf(UploadFile(s, file, st.selectedFolderId, reply))
      && |r.notices| == 2
      && r.notices[0] == Utils.Notice(Utils.Info, "Uploading " + file.name + "...")
      && (UploadFile(s, file, st.selectedFolderId, reply).result.value.Success? ==>
            r.notices[1] == Utils.Notice(Utils.Success, "Upload successful."))
      && (UploadFile(s, file, st.selectedFolderId, reply).result.value.Failure? ==>
            r.notices[1] == Utils.Notice(Utils.Error, "Upload failed: " + UploadFile(s, file, st.selectedFolderId, reply).result.value.error))
      && (r.reloads == [st.selectedFolderId] <==> UploadFile(s, file, st.selectedFolderId, reply).result.value.Success?)
      && (r.reloads == [] <==> UploadFile(s, file, st.selectedFolderId, reply).result.value.Failure?)
  {
    if st.selectedFolderId == "" then
      Step(st, [], [Utils.Notice(Utils.Error, "Please select a folder first.")], [], false)
    else
      var x := UploadFile(s, file, st.selectedFolderId, reply);
      var started := Utils.Notice(Utils.Info, "Uploading " + file.name + "...");
      match x.result.value
      case Success(_) =>
        Step(st, SentOf(x), [started, Utils.Notice(Utils.Success, "Upload successful.")], [st.selectedFolderId], false)
      case Failure(e) =>
        Step(st, SentOf(x), [started, Utils.Notice(Utils.Error, "Upload failed: " + e)], [], false)
  }

  /** The id the dashboard reads from a created folder; a reply without one reads as "". */
  function CreatedId(record: Option<Folder>): string {
    if record.Some? then record.value.id else ""
  }

  /**
   * What `createFolder` does once the folder exists: await `loadFolders`, then
   * select the new folder and load its files. If the reload rejects, the
   * handler stops there.
   */
  function AfterFolderCreated(st: State, s: Session, newId: string, listReply: Reply<Folder>): (r: Step)
    ensures r.sent == [ListFolders]
    ensures r.notices == [Utils.Notice(Utils.Success, "Folder created successfully.")]
    ensures r.state.itemToDelete == st.itemToDelete && r.state.confirmOpen == st.confirmOpen
    ensures r.rejected <==> GetFolders(s, listReply).result == Rejected
    ensures r.rejected ==> r.state == st && r.reloads == []
    ensures !r.rejected ==>
      && r.state.selectedFolderId == newId
      && r.reloads == [SelectAfterLoad(st.selectedFolderId, GetFolders(s, listReply).result.value), newId]
  {
    var created := Utils.Notice(Utils.Success, "Folder created successfully.");
    var load := LoadFolders(st, s, listReply);
    if load.rejected then load.(notices := [created])
    else Step(load.state.(selectedFolderId := newId), load.sent, [created], load.reloads + [newId], false)
  }

  /**
   * `createFolder`: the prompt's answer (`None` when cancelled) is ignored when
   * empty or blank; otherwise its trimmed form is sent, and on success the new
   * folder becomes the selection.
   */
  function CreateFolderFlow(st: State, s: Session, answer: Option<string>,
                            createReply: Reply<Folder>, listReply: Reply<Folder>): (r: Step)
    ensures answer.None? || Text.Trim(answer.value) == "" ==> r == Idle(st)
    ensures r.state.itemToDelete == st.itemToDelete && r.state.confirmOpen == st.confirmOpen
    ensures answer.Some? && Text.Trim(answer.value) != "" && UserId(s).Some? ==>
      |r.sent| > 0 && r.sent[0] == CreateFolderRecord(Text.Trim(answer.value), UserId(s).value)
    ensures answer.Some? && Text.Trim(answer.value) != "" ==>
      var x := Api.CreateFolder(s, Text.Trim(answer.value), createReply);
      && r.sent == SentOf(x) + (if x.result.Resolved? && x.result.value.Success? then [ListFolders] else [])
      && (x.result == Rejected ==> r.rejected && r.state == st && r.reloads == [] && r.notices == [])
      && (x.result.Resolved? && x.result.value.Failure? ==>
            && !r.rejected && r.state == st && r.reloads == []
            && r.notices == [Utils.Notice(Utils.Error, "Failed to create folder: " + x.result.value.error)])
      && (x.result.Resolved? && x.result.value.Success? ==>
            && (r.rejected <==> GetFolders(s, listReply).result == Rejected)
            && r.notices == [Utils.Notice(Utils.Success, "Folder created successfully.")]
            && (r.rejected ==> r.state == st && r.reloads == [])
            && (!r.rejected ==>
                  && r.state.selectedFolderId == CreatedId(x.result.value.data)
                  && r.reloads == [SelectAfterLoad(st.selectedFolderId, GetFolders(s, listReply).result.value),
                                   CreatedId(x.result.value.data)]))
  {
    if answer.None? || Text.Trim(answer.value) == "" then Idle(st)
    else
      var x := Api.CreateFolder(s, Text.Trim(answer.value), createReply);
      match x.result
      case Resolved(Failure(e)) =>
        Step(st, SentOf(x), [Utils.Notice(Utils.Error, "Failed to create folder: " + e)], [], false)
      case Resolved(Success(record)) =>
        var rest := AfterFolderCreated(st, s, CreatedId(record), listReply);
        rest.(sent := SentOf(x) + rest.sent)
      case _ => Step(st, SentOf(x), [], [], true)
  }

  // ---------------------------------------------------------------------------
  // Deletion
  // ---------------------------------------------------------------------------

  /** The item a file tile's context menu offers for deletion. */
  function FileTarget(f: FileRecord): (t: DeleteTarget)
    ensures t.kind == FileItem && t.id == f.id && t.name == f.name
  {
    DeleteTarget(f.id, f.name, FileItem)
  }

  /** The context menu's delete action: remember the item and open the confirmation. */
  function ChooseDelete(st: State, item: DeleteTarget): (r: State)
    ensures r.itemToDelete == Some(item) && r.confirmOpen
    ensures r.selectedFolderId == st.selectedFolderId
  {
    st.(itemToDelete := Some(item), confirmOpen := true)
  }

  /** The cancel button: the confirmation closes, the pending item stays. */
  function CancelDelete(st: State): (r: State)
    ensures !r.confirmOpen
    ensures r.itemToDelete == st.itemToDelete && r.selectedFolderId == st.selectedFolderId
  {
    st.(confirmOpen := false)
  }

  const FolderDeleteUnsupported: string := "Folder deletion is not fully supported yet."

  /**
   * `handleDelete`: nothing pending does nothing; a pending folder only warns
   * and closes the confirmation, keeping the item; a pending file is deleted and
   * then cleared whatever the envelope says. A rejected delete stops before the
   * confirmation closes.
   */
  function HandleDelete<T>(st: State, s: Session, reply: Reply<T>): (r: Step)
    ensures st.itemToDelete.None? ==> r == Idle(st)
    ensures r.state.selectedFolderId == st.selectedFolderId
    ensures st.itemToDelete.Some? && st.itemToDelete.value.kind == FolderItem ==>
      && r.sent == [] && r.reloads == []
      && r.state == st.(confirmOpen := false)
      && r.notices == [Utils.Notice(Utils.Warning, FolderDeleteUnsupported)]
    ensures st.itemToDelete.Some? && st.itemToDelete.value.kind == FileItem ==>
      && r.sent == [DeleteFileRecord(st.itemToDelete.value.id)]
      && (reply.NetworkError? <==> r.rejected)
      && (r.rejected ==> r.state == st)
      && (!r.rejected ==> r.state == st.(itemToDelete := None, confirmOpen := false))
      && (r.reloads == [st.selectedFolderId] <==> reply.Ok())
      && (r.rejected ==> r.notices == [] && r.reloads == [])
      && (!reply.Ok() ==> r.reloads == [])
      && (reply.Ok() ==>
            r.notices == [Utils.Notice(Utils.Success, "\"" + st.itemToDelete.value.name + "\" was deleted successfully.")])
      && (reply.Response? && !reply.Ok() ==> r.notices == [Utils.Notice(Utils.Error, "Error: " + DeleteFileFailed)])
  {
    match st.itemToDelete
    case None => Idle(st)
    case Some(item) =>
      if item.kind == FolderItem then
        Step(st.(confirmOpen := false), [], [Utils.Notice(Utils.Warning, FolderDeleteUnsupported)], [], false)
      else
        var x := DeleteFile(s, item.id, reply);
        var cleared := st.(itemToDelete := None, confirmOpen := false);
        match x.result
        case Resolved(Success(_)) =>
          var text := "\"" + item.name + "\" was deleted successfully.";
          Step(cleared, SentOf(x), [Utils.Notice(Utils.Success, text)], [st.selectedFolderId], false)
        case Resolved(Failure(e)) =>
          Step(cleared, SentOf(x), [Utils.Notice(Utils.Error, "Error: " + e)], [], false)
        case _ => Step(st, SentOf(x), [], [], true)
  }

  // ---------------------------------------------------------------------------
  // Invariants
  // ---------------------------------------------------------------------------

  /** The confirmation is only ever open about some pending item. */
  predicate Consistent(st: State) {
    st.confirmOpen ==> st.itemToDelete.Some?
  }

  /** The folder and upload handlers keep the confirmation tied to a pending item. */
  lemma BrowsingKeepsConsistent(st: State, s: Session, value: string, file: LocalFile,
                                answer: Option<string>, rf: Reply<FileRecord>, rd: Reply<Folder>, rd2: Reply<Folder>)
    requires Consistent(st)
    ensures Consistent(Initial)
    ensures Consistent(LoadFolders(st, s, rd).state)
    ensures Consistent(SelectFolder(st, value).state)
    ensures Consistent(HandleFileUpload(st, s, file, rf).state)
    ensures Consistent(CreateFolderFlow(st, s, answer, rd, rd2).state)
  {
  }

  /** The deletion handlers keep the confirmation tied to a pending item. */
  lemma DeletionKeepsConsistent<T>(st: State, s: Session, item: DeleteTarget, rt: Reply<T>)
    requires Consistent(st)
    ensures Consistent(ChooseDelete(st, item))
    ensures Consistent(CancelDelete(st))
    ensures Consistent(HandleDelete(st, s, rt).state)
  {
  }

  /** Only file tiles open the delete menu, so a pending item is always a file. */
  predicate OnlyFilesPending(st: State) {
    st.itemToDelete.Some? ==> st.itemToDelete.value.kind == FileItem
  }

  /**
   * Under that invariant the folder branch of `handleDelete` is unreachable:
   * confirming either does nothing or sends exactly one delete for the pending file.
   */
  lemma ConfirmOnlyDeletesFiles<T>(st: State, s: Session, f: FileRecord, rt: Reply<T>)
    requires OnlyFilesPending(st)
    ensures OnlyFilesPending(ChooseDelete(st, FileTarget(f)))
    ensures OnlyFilesPending(HandleDelete(st, s, rt).state)
    ensures st.itemToDelete.Some? ==> HandleDelete(st, s, rt).sent == [DeleteFileRecord(st.itemToDelete.value.id)]
  {
  }

  /** Choosing a file from its tile and confirming deletes exactly that file and clears the item. */
  lemma ChooseThenConfirm<T>(st: State, s: Session, f: FileRecord, reply: Reply<T>)
    requires reply.Response?
    ensures var r := HandleDelete(ChooseDelete(st, FileTarget(f)), s, reply);
      && r.sent == [DeleteFileRecord(f.id)]
      && r.state.itemToDelete.None? && !r.state.confirmOpen
  {
  }

  /** Cancelling and confirming again still finds the same pending item. */
  lemma CancelKeepsPending<T>(st: State, s: Session, item: DeleteTarget, rt: Reply<T>)
    requires item.kind == FileItem
    ensures HandleDelete(CancelDelete(ChooseDelete(st, item)), s, rt).sent == [DeleteFileRecord(item.id)]
  {
  }
}

=== FILE: text.dfy ===
/**
 * ASCII stand-ins for the JavaScript string built-ins the client relies on:
 * `toLowerCase`, `split('.').pop()` and `trim`.
 */
module Text {

  /** An ASCII upper-case letter. */
  predicate IsUpper(c: char) {
    'A' <= c <= 'Z'
  }

  /** Lower-cases one character; only the ASCII letters A-Z change. */
  function LowerChar(c: char): (r: char)
    ensures !IsUpper(r)
    ensures r == '.' <==> c == '.'
    ensures !IsUpper(c) ==> r == c
  {
    if IsUpper(c) then (c as int + 32) as char else c
  }

  /** `toLowerCase`, restricted to ASCII. */
  function ToLower(s: string): (r: string)
    ensures |r| == |s|
    ensures forall i :: 0 <= i < |s| ==> r[i] == LowerChar(s[i])
  {
    if |s| == 0 then "" else ToLower(s[..|s| - 1]) + [LowerChar(s[|s| - 1])]
  }

  /** Two strings that differ only in the case of ASCII letters. */
  predicate EqualIgnoringCase(a: string, b: string) {
    |a| == |b| && forall i :: 0 <= i < |a| ==> LowerChar(a[i]) == LowerChar(b[i])
  }

  /** Lower-casing forgets exactly the case of letters. */
  lemma ToLowerIgnoresCase(a: string, b: string)
    requires EqualIgnoringCase(a, b)
    ensures ToLower(a) == ToLower(b)
  {
  }

  // ---------------------------------------------------------------------------
  // The text after the last '.'
  // ---------------------------------------------------------------------------

  /**
   * `t` is what `s.split('.').pop()` yields: a dot-free suffix of `s` that is
   * either all of `s` or directly preceded by a '.'.
   */
  ghost predicate IsLastSegment(s: string, t: string) {
    && |t| <= |s|
    && t == s[|s| - |t|..]
    && '.' !in t
    && (|t| < |s| ==> s[|s| - |t| - 1] == '.')
  }

  /** `s.split('.').pop()`: the text after the last '.', or all of `s` when it has none. */
  function AfterLastDot(s: string): (r: string)
    ensures IsLastSegment(s, r)
  {
    if |s| == 0 then ""
    else if s[|s| - 1] == '.' then ""
    else
      var prefix := s[..|s| - 1];
      assert s == prefix + [s[|s| - 1]];
      AfterLastDot(prefix) + [s[|s| - 1]]
  }

  /** There is only one last segment, so `IsLastSegment` pins `AfterLastDot` down. */
  lemma LastSegmentUnique(s: string, t: string, u: string)
    requires IsLastSegment(s, t) && IsLastSegment(s, u)
    ensures t == u
  {
  }

  /** `AfterLastDot(s)` is the last segment of `s` and nothing else is. */
  lemma AfterLastDotCharacterized(s: string, t: string)
    ensures IsLastSegment(s, t) <==> t == AfterLastDot(s)
  {
    if IsLastSegment(s, t) {
      LastSegmentUnique(s, t, AfterLastDot(s));
    }
  }

  /** A name without a dot is its own extension. */
  lemma AfterLastDotNoDot(s: string)
    requires '.' !in s
    ensures AfterLastDot(s) == s
  {
    assert s[|s| - |s|..] == s;
    LastSegmentUnique(s, s, AfterLastDot(s));
  }

  /** A name ending in a dot has an empty extension. */
  lemma AfterLastDotTrailingDot(s: string)
    ensures AfterLastDot(s + ".") == ""
  {
  }

  /** Everything up to and including a dot is discarded. */
  lemma AfterLastDotJoin(a: string, b: string)
    ensures AfterLastDot(a + "." + b) == AfterLastDot(b)
  {
    var p := a + ".";
    var s := p + b;
    var t := AfterLastDot(b);
    assert t == s[|s| - |t|..] by {
      assert s[|p|..] == b;
      assert b[|b| - |t|..] == s[|p|..][|b| - |t|..];
    }
    assert |t| < |s| && s[|s| - |t| - 1] == '.' by {
      if |t| == |b| {
        assert s[|p| - 1] == '.';
      } else {
        assert s[|s| - |t| - 1] == b[|b| - |t| - 1];
      }
    }
    LastSegmentUnique(s, t, AfterLastDot(s));
  }

  /** Lower-casing works piece by piece. */
  lemma {:induction false} ToLowerAppend(p: string, t: string)
    ensures ToLower(p + t) == ToLower(p) + ToLower(t)
    decreases |t|
  {
    if t == [] {
      assert p + t == p;
    } else {
      var front := t[..|t| - 1];
      assert (p + t)[..|p + t| - 1] == p + front;
      ToLowerAppend(p, front);
    }
  }

  /** Lower-casing a suffix gives the same suffix of the lower-cased text. */
  lemma ToLowerSuffix(s: string, t: string)
    requires |t| <= |s| && t == s[|s| - |t|..]
    ensures ToLower(t) == ToLower(s)[|s| - |t|..]
  {
    var p := s[..|s| - |t|];
    assert s == p + t;
    ToLowerAppend(p, t);
  }

  /** Lower-casing neither adds nor removes dots. */
  lemma ToLowerKeepsDots(t: string)
    ensures '.' in ToLower(t) <==> '.' in t
  {
    var lt := ToLower(t);
    if '.' in t {
      var i :| 0 <= i < |t| && t[i] == '.';
      assert lt[i] == '.';
    }
    if '.' in lt {
      var i :| 0 <= i < |lt| && lt[i] == '.';
      assert t[i] == '.';
    }
  }

  /** Lower-casing cannot create or remove dots, so it commutes with taking the extension. */
  lemma AfterLastDotToLower(s: string)
    ensures AfterLastDot(ToLower(s)) == ToLower(AfterLastDot(s))
  {
    var t := AfterLastDot(s);
    var ls := ToLower(s);
    var lt := ToLower(t);
    ToLowerSuffix(s, t);
    ToLowerKeepsDots(t);
    if |lt| < |ls| {
      assert ls[|ls| - |lt| - 1] == LowerChar(s[|s| - |t| - 1]);
    }
    assert IsLastSegment(ls, lt);
    LastSegmentUnique(ls, lt, AfterLastDot(ls));
  }

  // ---------------------------------------------------------------------------
  // Trimming
  // ---------------------------------------------------------------------------

  /** The ASCII white-space characters `trim` removes. */
  predicate IsSpace(c: char) {
    c == ' ' || c == '\t' || c == '\n' || c == '\r' || c == '\U{0B}' || c == '\U{0C}'
  }

  /** Every character of `s` is white space (vacuously so for ""). */
  predicate AllSpace(s: string) {
    forall i :: 0 <= i < |s| ==> IsSpace(s[i])
  }

  /** Drops leading white space. */
  function TrimStart(s: string): (r: string)
    ensures |r| <= |s| && r == s[|s| - |r|..]
    ensures AllSpace(s[..|s| - |r|])
    ensures r == "" || !IsSpace(r[0])
  {
    if |s| > 0 && IsSpace(s[0]) then
      var r := TrimStart(s[1..]);
      assert s[..|s| - |r|] == [s[0]] + s[1..][..|s| - 1 - |r|];
      r
    else s
  }

  /** Drops trailing white space. */
  function TrimEnd(s: string): (r: string)
    ensures |r| <= |s| && r == s[..|r|]
    ensures AllSpace(s[|r|..])
    ensures r == "" || !IsSpace(r[|r| - 1])
  {
    if |s| > 0 && IsSpace(s[|s| - 1]) then
      var r := TrimEnd(s[..|s| - 1]);
      assert s[|r|..] == s[..|s| - 1][|r|..] + [s[|s| - 1]];
      r
    else s
  }

  /** `trim`: drops white space at both ends. */
  function Trim(s: string): (r: string)
    ensures |r| <= |s|
    ensures r == "" <==> AllSpace(s)
    ensures r == "" || (!IsSpace(r[0]) && !IsSpace(r[|r| - 1]))
  {
    var front := TrimStart(s);
    var r := TrimEnd(front);
    assert r == "" ==> AllSpace(s) by {
      if r == "" {
        assert front == "";
        assert s == s[..|s| - |front|];
      }
    }
    assert AllSpace(s) ==> front == "";
    r
  }

  /** Leading white space in front of a non-blank start is exactly what `TrimStart` removes. */
  lemma {:induction false} TrimStartSkipsSpaces(pre: string, t: string)
    requires AllSpace(pre)
    requires t == "" || !IsSpace(t[0])
    ensures TrimStart(pre + t) == t
    decreases |pre|
  {
    if pre == [] {
      assert pre + t == t;
    } else {
      assert (pre + t)[1..] == pre[1..] + t;
      TrimStartSkipsSpaces(pre[1..], t);
    }
  }

  /** Trailing white space after a non-blank end is exactly what `TrimEnd` removes. */
  lemma {:induction false} TrimEndSkipsSpaces(t: string, post: string)
    requires AllSpace(post)
    requires t == "" || !IsSpace(t[|t| - 1])
    ensures TrimEnd(t + post) == t
    decreases |post|
  {
    if post == [] {
      assert t + post == t;
    } else {
      var shorter := post[..|post| - 1];
      assert (t + post)[..|t + post| - 1] == t + shorter;
      TrimEndSkipsSpaces(t, shorter);
    }
  }

  /** `trim` recovers a text that neither starts nor ends with white space from any padding. */
  lemma TrimSurrounded(pre: string, t: string, post: string)
    requires AllSpace(pre) && AllSpace(post)
    requires t == "" || (!IsSpace(t[0]) && !IsSpace(t[|t| - 1]))
    ensures Trim(pre + t + post) == t
  {
    var s := pre + t + post;
    if t == "" {
      assert AllSpace(s) by {
        forall i | 0 <= i < |s|
          ensures IsSpace(s[i])
        {
          if i < |pre| { assert s[i] == pre[i]; } else { assert s[i] == post[i - |pre|]; }
        }
      }
    } else {
      assert s == pre + (t + post);
      TrimStartSkipsSpaces(pre, t + post);
      TrimEndSkipsSpaces(t, post);
    }
  }

  /** Text that does not start with white space is left alone by `TrimStart`. */
  lemma TrimStartKeeps(t: string)
    requires t == "" || !IsSpace(t[0])
    ensures TrimStart(t) == t
  {
  }

  /** Text that does not end with white space is left alone by `TrimEnd`. */
  lemma TrimEndKeeps(t: string)
    requires t == "" || !IsSpace(t[|t| - 1])
    ensures TrimEnd(t) == t
  {
  }

  /** Text with no white space at either end is left alone by `Trim`. */
  lemma TrimKeeps(t: string)
    requires t == "" || (!IsSpace(t[0]) && !IsSpace(t[|t| - 1]))
    ensures Trim(t) == t
  {
    TrimStartKeeps(t);
    TrimEndKeeps(t);
  }

  /** Trimming is idempotent. */
  lemma TrimIdempotent(s: string)
    ensures Trim(Trim(s)) == Trim(s)
  {
    TrimKeeps(Trim(s));
  }
}

=== FILE: utils.dfy ===
/**
 * The pure decisions of the client's presentation utilities: classifying a file
 * by its extension, admitting a file for upload, the light/dark theme rule, and
 * the notices shown to the user.
 */
module Utils {
  import opened Common
  import Text

  // ---------------------------------------------------------------------------
  // File classification
  // ---------------------------------------------------------------------------

  /** The eight categories a file name can fall into. */
  datatype FileType = Pdf | Image | Video | Audio | Document | Archive | Code | Default

  /** The category's name as the page uses it in the `data-type` attribute. */
  function Label(t: FileType): string {
    match t
    case Pdf => "pdf"
    case Image => "image"
    case Video => "video"
    case Audio => "audio"
    case Document => "document"
    case Archive => "archive"
    case Code => "code"
    case Default => "default"
  }

  /** The only strings `getFileType` can return. */
  const Labels: set<string> := {"pdf", "image", "video", "audio", "document", "archive", "code", "default"}

  /** Every label is one of the eight, and distinct categories carry distinct labels. */
  lemma LabelIsOneOfEight(t: FileType, u: FileType)
    ensures Label(t) in Labels
    ensures Label(t) == Label(u) ==> t == u
  {
  }

  const ImageTypes: seq<string> := ["jpg", "jpeg", "png", "gif", "bmp", "svg", "webp"]
  const VideoTypes: seq<string> := ["mp4", "avi", "mov", "wmv", "flv", "webm", "mkv"]
  const AudioTypes: seq<string> := ["mp3", "wav", "flac", "aac", "ogg", "wma"]
  const DocumentTypes: seq<string> := ["doc", "docx", "txt", "rtf", "odt"]
  const ArchiveTypes: seq<string> := ["zip", "rar", "7z", "tar", "gz"]
  const CodeTypes: seq<string> := ["js", "html", "css", "php", "py", "java", "cpp", "c", "json", "xml"]

  /** The extensions listed for each category; `Default` lists none. */
  function ExtensionsOf(t: FileType): seq<string> {
    match t
    case Pdf => ["pdf"]
    case Image => ImageTypes
    case Video => VideoTypes
    case Audio => AudioTypes
    case Document => DocumentTypes
    case Archive => ArchiveTypes
    case Code => CodeTypes
    case Default => []
  }

  /** The chain of checks over an already lower-cased extension, first match wins. */
  function Classify(ext: string): (t: FileType)
    ensures t != Default ==> ext in ExtensionsOf(t)
    ensures t == Default ==> forall k :: ext !in ExtensionsOf(k)
  {
    if ext == "pdf" then Pdf
    else if ext in ImageTypes then Image
    else if ext in VideoTypes then Video
    else if ext in AudioTypes then Audio
    else if ext in DocumentTypes then Document
    else if ext in ArchiveTypes then Archive
    else if ext in CodeTypes then Code
    else Default
  }

  // Each list is classified as its own category; one lemma per list keeps the proofs small.
  lemma ClassifiesImages() ensures forall i :: 0 <= i < |ImageTypes| ==> Classify(ImageTypes[i]) == Image {}
  lemma ClassifiesVideos() ensures forall i :: 0 <= i < |VideoTypes| ==> Classify(VideoTypes[i]) == Video {}
  lemma ClassifiesAudio() ensures forall i :: 0 <= i < |AudioTypes| ==> Classify(AudioTypes[i]) == Audio {}
  lemma ClassifiesDocuments() ensures forall i :: 0 <= i < |DocumentTypes| ==> Classify(DocumentTypes[i]) == Document {}
  lemma ClassifiesArchives() ensures forall i :: 0 <= i < |ArchiveTypes| ==> Classify(ArchiveTypes[i]) == Archive {}
  lemma ClassifiesCode() ensures forall i :: 0 <= i < |CodeTypes| ==> Classify(CodeTypes[i]) == Code {}

  /** Every listed extension is classified as the category that lists it. */
  lemma ClassifyListed(ext: string, t: FileType)
    requires ext in ExtensionsOf(t)
    ensures Classify(ext) == t
  {
    match t
    case Pdf =>
    case Image => ClassifiesImages();
    case Video => ClassifiesVideos();
    case Audio => ClassifiesAudio();
    case Document => ClassifiesDocuments();
    case Archive => ClassifiesArchives();
    case Code => ClassifiesCode();
  }

  /** No extension is listed under two categories. */
  lemma ExtensionListsDisjoint(ext: string, t: FileType, u: FileType)
    requires ext in ExtensionsOf(t) && ext in ExtensionsOf(u)
    ensures t == u
  {
    ClassifyListed(ext, t);
    ClassifyListed(ext, u);
  }

  /**
   * Because the lists are disjoint, the order of the checks does not matter:
   * an extension is classified as exactly the category that lists it.
   */
  lemma ClassifyIsMembership(ext: string, t: FileType)
    ensures t != Default ==> (Classify(ext) == t <==> ext in ExtensionsOf(t))
    ensures Classify(ext) == Default <==> forall k :: ext !in ExtensionsOf(k)
  {
    if t != Default && ext in ExtensionsOf(t) {
      ClassifyListed(ext, t);
    }
  }

  /** `getFileType`: the category of the lower-cased text after the name's last dot. */
  function GetFileType(filename: string): (t: FileType)
    ensures var ext := Text.ToLower(Text.AfterLastDot(filename));
      && (t != Default ==> ext in ExtensionsOf(t))
      && (t == Default <==> forall k :: ext !in ExtensionsOf(k))
  {
    var ext := Text.ToLower(Text.AfterLastDot(filename));
    ClassifyIsMembership(ext, Default);
    Classify(ext)
  }

  /** The case of ASCII letters in a file name never changes its category. */
  lemma GetFileTypeIgnoresCase(a: string, b: string)
    requires Text.EqualIgnoringCase(a, b)
    ensures GetFileType(a) == GetFileType(b)
  {
    Text.ToLowerIgnoresCase(a, b);
    Text.AfterLastDotToLower(a);
    Text.AfterLastDotToLower(b);
  }

  /** Only the last dot-separated segment matters: any prefix ending in a dot is ignored. */
  lemma GetFileTypeLastSegment(stem: string, ext: string)
    ensures GetFileType(stem + "." + ext) == GetFileType(ext)
  {
    Text.AfterLastDotJoin(stem, ext);
  }

  /** A name ending in a dot has an empty extension, which no list contains. */
  lemma GetFileTypeTrailingDot(name: string)
    ensures GetFileType(name + ".") == Default
  {
    Text.AfterLastDotTrailingDot(name);
  }

  /** A double extension is classified by its last part. */
  lemma GetFileTypeDoubleExtension()
    ensures GetFileType("archive.tar.gz") == Archive
  {
    GetFileTypeLastSegment("archive.tar", "gz");
    Text.AfterLastDotNoDot("gz");
    assert Text.ToLower("gz") == "gz";
    ClassifiesArchives();
    assert ArchiveTypes[4] == "gz";
  }

  /** The bare name "PDF" lower-cases to the PDF extension. */
  lemma PdfInCapitals()
    ensures GetFileType("PDF") == Pdf
  {
    Text.AfterLastDotNoDot("PDF");
    var lower := Text.ToLower("PDF");
    assert lower[0] == 'p' && lower[1] == 'd' && lower[2] == 'f';
  }

  /** An upper-case extension is classified like its lower-case form. */
  lemma GetFileTypeUpperCase()
    ensures GetFileType("REPORT.PDF") == Pdf
  {
    PdfInCapitals();
    assert GetFileType("REPORT.PDF") == GetFileType("PDF") by {
      assert "REPORT.PDF" == "REPORT" + "." + "PDF";
      GetFileTypeLastSegment("REPORT", "PDF");
    }
  }

  /** A dotless name is its own extension, so a file called "c" counts as code. */
  lemma GetFileTypeDotless()
    ensures GetFileType("c") == Code
  {
    Text.AfterLastDotNoDot("c");
    assert Text.ToLower("c") == "c";
    ClassifiesCode();
    assert CodeTypes[7] == "c";
  }

  // ---------------------------------------------------------------------------
  // Upload admission
  // ---------------------------------------------------------------------------

  /** The default size limit: 100 MiB. */
  const DefaultMaxSize: int := 100 * 1024 * 1024

  /** The MIME-type prefixes a file may start with. */
  const AllowedPrefixes: seq<string> := [
    "image/", "video/", "audio/", "text/", "application/pdf",
    "application/msword", "application/vnd.openxmlformats-officedocument",
    "application/zip", "application/x-rar-compressed", "application/json"
  ]

  /** Why a file was refused; the message text is abstracted to its cause. */
  datatype Rejection = TooLarge(limit: int) | TypeNotAllowed

  /** The outcome of `validateFile`. */
  datatype Verdict = Valid | Invalid(reason: Rejection)

  /** `prefixes.some(p => s.startsWith(p))`. */
  function StartsWithAny(s: string, prefixes: seq<string>): (b: bool)
    ensures b <==> exists i :: 0 <= i < |prefixes| && prefixes[i] <= s
  {
    if |prefixes| == 0 then false
    else prefixes[0] <= s || StartsWithAny(s, prefixes[1..])
  }

  /** The MIME type begins with one of the allowed prefixes. */
  ghost predicate AllowedType(mimeType: string) {
    exists i :: 0 <= i < |AllowedPrefixes| && AllowedPrefixes[i] <= mimeType
  }

  /** `validateFile`: the size is checked first, then the type. */
  function ValidateFile(file: LocalFile, maxSize: int): (v: Verdict)
    ensures v == Valid <==> file.size <= maxSize && AllowedType(file.mimeType)
    ensures file.size > maxSize ==> v == Invalid(TooLarge(maxSize))
    ensures v == Invalid(TypeNotAllowed) <==> file.size <= maxSize && !AllowedType(file.mimeType)
  {
    if file.size > maxSize then Invalid(TooLarge(maxSize))
    else if !StartsWithAny(file.mimeType, AllowedPrefixes) then Invalid(TypeNotAllowed)
    else Valid
  }

  /** `validateFile` called without a limit uses 100 MiB, inclusive. */
  function ValidateFileDefault(file: LocalFile): (v: Verdict)
    ensures DefaultMaxSize == 104857600
    ensures file.size == 104857600 && AllowedType(file.mimeType) ==> v == Valid
    ensures file.size > 104857600 ==> v == Invalid(TooLarge(104857600))
  {
    ValidateFile(file, DefaultMaxSize)
  }

  /** A too-large file is refused for its size, whatever its type. */
  lemma SizeCheckedBeforeType(name: string, size: nat, t1: string, t2: string, maxSize: int)
    requires size > maxSize
    ensures ValidateFile(LocalFile(name, size, t1), maxSize) == ValidateFile(LocalFile(name, size, t2), maxSize)
  {
  }

  /** Worked cases: a PDF exactly at the limit passes, a file with no MIME type fails. */
  lemma ValidateFileExamples()
    ensures ValidateFile(LocalFile("a.pdf", 10, "application/pdf"), 10) == Valid
    ensures ValidateFile(LocalFile("a.bin", 10, ""), 10) == Invalid(TypeNotAllowed)
    ensures ValidateFile(LocalFile("a.png", 11, "image/png"), 10) == Invalid(TooLarge(10))
  {
    assert AllowedPrefixes[4] <= "application/pdf";
    assert forall i :: 0 <= i < |AllowedPrefixes| ==> !(AllowedPrefixes[i] <= "");
  }

  // ---------------------------------------------------------------------------
  // Theme
  // ---------------------------------------------------------------------------

  const Light: string := "light"
  const Dark: string := "dark"

  /** The theme applied on load: the saved one, or light when nothing (or "") is saved. */
  function InitialTheme(saved: Option<string>): (t: string)
    ensures saved == None || saved == Some("") ==> t == Light
    ensures saved.Some? && saved.value != "" ==> t == saved.value
    ensures t != ""
  {
    if saved.Some? && saved.value != "" then saved.value else Light
  }

  /** The toggle button: dark becomes light, anything else becomes dark. */
  function ToggleTheme(current: string): (t: string)
    ensures t == Light || t == Dark
    ensures t != current
    ensures t == Light <==> current == Dark
  {
    if current == Dark then Light else Dark
  }

  /** Toggling twice is the identity on the two themes, and any theme reaches them after one toggle. */
  lemma ToggleTwice(t: string)
    ensures (t == Light || t == Dark) ==> ToggleTheme(ToggleTheme(t)) == t
    ensures ToggleTheme(ToggleTheme(t)) == (if t == Dark then Dark else Light)
  {
  }

  /** The toggled theme is saved, so the next page load starts from it. */
  lemma ToggleSurvivesReload(current: string)
    ensures InitialTheme(Some(ToggleTheme(current))) == ToggleTheme(current)
  {
  }

  // ---------------------------------------------------------------------------
  // Notices
  // ---------------------------------------------------------------------------

  /** The four notice styles. */
  datatype Level = Success | Error | Warning | Info

  /** One transient on-screen notification. */
  datatype Notice = Notice(level: Level, text: string)
}
